=== FILE: README.md ===
# gitu application state machine, in Dafny

This project models the decision logic of gitu's `src/main.rs`: the
application state that drives a terminal git front-end. Terminals, processes
and screens are abstract. The state holds a quit flag, a stack of screens
(navigation history, the top screen last), a pending prefix-key group and at
most one issued command with a `running` flag. The model covers:

- the at-most-one-command guard (`issue_command`, `issue_subscreen_command`,
  `clear_finished_command`) and the completion edge of `handle_command_output`;
- the two-level key dispatch of `handle_op`: a pending group narrows the key
  lookup, any resolved key clears it, a prefix key sets it again, and `Quit`
  either cancels a pending group or pops one screen, quitting when none is left;
- `update`, which only lets key presses reach `handle_op` and applies a resize to
  the top screen only, and the `run` loop that calls `update` until quit;
- the target-operation matrix `closure_by_target_op`, which here yields an
  `Action` value describing the closure's work, and `list_target_ops`;
- the editor argument convention of `editor`, with the editor name as a parameter.

Modules: `Wrappers` (Option, Result), `Ints` (u16, u32), `Keybinds` (operation
vocabulary), `Items` (target data), `Screens` (a screen is its kind, its viewport
and a log of the screen methods called on it), `Commands` (issued commands,
spawn answers, polls), `Editor`, `TargetOps`, `AppState` (the `State` methods)
and `Dispatch` (`handle_op`, `update`, the loop). Whatever the outside world
decides during one event is an input, `Dispatch.Env`: the key table
`op_of_key_event`, the selected item's target data, `$EDITOR`, the operating
system's answer to a spawn, the result of deleting a file, and what polling
the live command observes.

`.expect` panics are the outcome `Panicked`, and errors returned through `?`
are the outcome `Failed`. The source's `screen_mut().expect("No screen")` is a
precondition `|screens| > 0`. This precondition always holds in the loop,
because `Valid` (quit exactly when the screen stack is empty) holds initially
and `Run` keeps it.

Behaviours of the code worth knowing, all modelled as written:

- An unmatched key inside a prefix group leaves the group pending and changes
  nothing, because the pending group is cleared only after a lookup succeeds
  (src/main.rs:186-189, `Dispatch.UnmatchedKeyKeepsGroup`).
- `Quit` while help is shown only closes the help, because help counts as a
  pending group for `was_transient` (`Dispatch.HelpIsDismissedByNextKey`).
- Discarding a renamed delta is undefined in the matrix (`None`). The key
  press is absorbed, and no message is shown.

## Model

| member | source | states |
|---|---|---|
| AppState.Create | src/main.rs:45-65 | start-up opens exactly one screen (status, or the show/log/diff screen of the subcommand), nothing pending, no command, and the state is valid |
| AppState.IssueCommand | src/main.rs:75-85 | a running command leaves the state unchanged; otherwise the slot gets the freshly spawned captured command with its input, or the spawn error is returned and nothing changes |
| AppState.IssueSubscreenCommand | src/main.rs:87-97 | the same guard for a terminal-handoff command, which gets no input |
| AppState.RunningCommandIsNeverReplaced | src/main.rs:80-94 | while a command runs, neither issue method changes the state, whatever is requested and whatever the spawn would answer |
| AppState.ClearFinishedCommand | src/main.rs:99-105 | the slot becomes empty exactly when it was empty or held a finished command; a running command stays; nothing else changes |
| AppState.ClearedSlotAcceptsCommand | src/main.rs:80-105 | after clearing, a successful spawn always installs the new command unless one was still running |
| AppState.HandleCommandOutput | src/main.rs:107-115 | the live command keeps its arguments, mode and input, and new output is appended to its buffer; the top screen is refreshed exactly when the command finishes now; a finished command never becomes running again |
| AppState.JustFinishedFiresOnce | src/main.rs:107-115 | the completion edge fires once: the next poll cannot fire it again or refresh the screen |
| AppState.GotoLogScreen | src/main.rs:376-379 | the stack becomes two screens: the original bottom screen and a new log screen |
| AppState.GotoRefsScreen | src/main.rs:381-384 | the stack becomes two screens: the original bottom screen and a new refs screen |
| AppState.GotoDependsOnlyOnBottom | src/main.rs:376-384 | both navigations depend only on the bottom screen, so repeating them or combining them adds nothing |
| Dispatch.LookupGroup | src/main.rs:180-184 | keys are never looked up in the help group; any other pending group is used as is |
| Dispatch.HandleOp | src/main.rs:175-246 | an unresolved key changes nothing; a resolved key leaves pending empty unless it is a prefix key, which sets it and changes nothing else; Quit after a pending group only cancels it, otherwise pops exactly the top screen and quits iff none is left; a screen operation applies its method to the top screen of the cleared state and nothing else; an issuing operation is exactly `IssueStep` and a target operation exactly `TargetStep` on the cleared state; only Quit and the two navigations touch lower screens; a key that issues nothing leaves the command slot alone, and a running command survives every key; `?` errors come only from the issuing operations and panics only from target operations |
| Dispatch.Perform | src/main.rs:191-242 | the same properties for one resolved operation: a prefix key only sets the pending group, the screen operations call exactly their screen method on the top screen, the issuing operations are `IssueStep`, target operations are `TargetStep`, and operations that issue nothing keep the command slot |
| Dispatch.PopScreen | src/main.rs:192-203 | removes exactly the top screen, refreshes the new top, and sets quit exactly when the stack is empty |
| Dispatch.OnTop | src/main.rs:204-209 | a screen method changes only the top screen, by exactly that method; the lower screens, pending group, quit flag and command slot stay |
| Dispatch.Navigate | src/main.rs:192-241 | Quit, a prefix key, the log and the refs navigation leave the command slot alone; only Quit can empty the stack, and it quits exactly then |
| Dispatch.Act | src/main.rs:204-240 | screen, issuing and target operations keep the pending group, the quit flag and every screen below the top |
| Dispatch.IssueStep | src/main.rs:210-240 | commit and amend hand over the terminal, fetch, pull, push, rebase abort and continue run captured; the spawned command is the requested git command; after issuing, pull and push leave the screens unchanged and the others refresh only the top screen; a spawn error is returned and changes nothing; a running command is kept and the step continues |
| Dispatch.IssueThenRefresh | src/main.rs:210-239 | the issue-then-refresh pattern of the issuing arms, using the guard of src/main.rs:75-97: a running command is kept, a fresh spawn is installed in the requested mode, and a spawn error is returned with nothing changed; on success the top screen is refreshed only when asked |
| Dispatch.TargetStep | src/main.rs:226-232 | a target operation runs the matrix's action for the selected item's target data, and does nothing without target data or when the matrix has no entry |
| Dispatch.RunAction | src/main.rs:283-374 | running an action: a show action pushes one show screen, every other action refreshes the top screen; a missing `$EDITOR`, a failed spawn or a failed deletion panics and changes nothing; unless a command is running, the editor command, the patch command with the patch as input, the captured ref/file commands and the terminal-handoff rebase and fixup commands are spawned with their own argument |
| Dispatch.HelpIsDismissedByNextKey | src/main.rs:180-194 | with help pending, keys are looked up in the base table, any resolved non-prefix key dismisses help, and Quit then only dismisses it |
| Dispatch.UnmatchedKeyKeepsGroup | src/main.rs:186-189 | a key that resolves to nothing leaves the state, including the pending group, unchanged |
| Dispatch.ResizeTop | src/main.rs:155 | a resize sets the top screen's size and leaves the other screens and the rest of the state unchanged |
| Dispatch.ClampTop | src/main.rs:166-168 | the top screen's cursor is clamped when a screen exists; otherwise nothing happens |
| Dispatch.Update | src/main.rs:147-173 | every event step keeps the state valid; only key presses can fail, quit or change the pending group; a press quits exactly when `Quit` pops the last screen of the polled and cleared state, sets pending to what the resolved operation leaves, and an unresolved press only polls, clears a finished command and clamps; a press that issues nothing leaves the cleared command slot; a resize is exactly poll, resize the top screen, clamp; any other event or a non-press key is exactly poll and clamp |
| Dispatch.PressIsHandleOp | src/main.rs:156-168 | a key press is `handle_op` on the polled and cleared state; its error ends the step unclamped, otherwise the top screen is clamped |
| Dispatch.Prepared | src/main.rs:152-158 | before a press is handled the slot is empty exactly when no command was issued or it has finished by this poll |
| Dispatch.FinishedCommandClearedByPress | src/main.rs:152-160 | a command finished by the time of a key press is gone after it, unless the press issues a new one |
| Dispatch.FinishedCommandKeptWithoutPress | src/main.rs:152-164 | without a key press a finished command stays in the slot, not running |
| Dispatch.NonPressKeysIgnored | src/main.rs:156-163 | a repeat or release key event has exactly the effect of an ignored event |
| Dispatch.ResizeOnlyResizesTop | src/main.rs:154-155 | a resize differs from an ignored event only in the top screen's size |
| Dispatch.RunningCommandSurvivesUpdate | src/main.rs:152-160 | a command that is still running after the poll is the same command after any event, with the new output appended |
| Dispatch.Run | src/main.rs:134-142 | the loop keeps the state valid, consumes at most all events, and consumes at least one when the application is running; it stops early only when the application has quit or an update failed, and then the last consumed event was a key press; a quit application consumes nothing and stays as it was |
| Dispatch.RunFrom | src/main.rs:134-142 | one turn of the loop on a running application consumes at least one event and at most all of them; it stops before the end only on a quit, and a failure or quit follows a key press |
| Dispatch.RunFirstEvent | src/main.rs:140-141 | the first event is exactly one `Update`: when it is the only event, or when that update fails or panics (the `?`), the loop ends there with that update's state and outcome, whatever events follow |
| Dispatch.RunCons | src/main.rs:134-142 | after an update that continues, the loop is the loop on the remaining events from the updated state, with one more event handled |
| Dispatch.RunSplit | src/main.rs:134-142 | running two batches of events in a row equals running them together, when the first batch is consumed completely without quitting |
| Dispatch.RunKeepsRunningCommand | src/main.rs:134-142 | as long as the live command does not exit, no sequence of events replaces or drops it |
| TargetOps.ClosureByTargetOp | src/main.rs:256-302 | the matrix is defined exactly on the reference table `Defined`; each defined action is one that its operation may perform (`Performs`: show pushes a show screen or opens the editor, stage and unstage run their file or patch commands, discard removes, checks out or reverse-applies, the rebase family hands over the terminal, checkout checks out the ref); show pushes a screen iff the item is a ref, the editor gets a line iff the item is a hunk, and other operations use a patch iff the item is a hunk; rebase-interactive, fixup, autosquash and checkout apply only to refs; stage, unstage and discard never apply to refs, and unstage does not apply to files; discarding a delta is defined iff it is not a rename and then checks out the old path; every action acts on the item's own payload |
| TargetOps.FilterDefinedKeepsDefined | src/main.rs:251 | filtering keeps exactly the operations whose matrix entry exists and never repeats one |
| TargetOps.ListTargetOps | src/main.rs:248-252 | exactly the operations the matrix defines for the target, each once |
| TargetOps.ListTargetOpsInOrder | src/main.rs:251 | the operations appear in `list_all` order |
| TargetOps.ListTargetOpsOfRef | src/main.rs:263-301 | a ref offers show, interactive rebase, fixup, autosquash and checkout |
| TargetOps.ListTargetOpsOfFile | src/main.rs:263-301 | an untracked file offers show, stage and discard |
| TargetOps.ListTargetOpsOfDelta | src/main.rs:263-301 | a delta offers show, stage and unstage, and discard only when it is not a rename |
| TargetOps.ListTargetOpsOfHunk | src/main.rs:263-301 | a hunk offers show, stage, unstage and discard |
| Editor.Decimal | src/main.rs:321-323 | a line number is written as a non-empty string of digits without leading zeros |
| Editor.ParseDecimalOfDecimal | src/main.rs:321-323 | the written line number reads back as the same number |
| Editor.EditorArgs | src/main.rs:318-326 | `[file]` without a line; `["+<line>", file]` for vi, vim, nvim and nano; `["<file>:<line>"]` for any other editor |
| Editor.LineFlagArgsRoundTrip | src/main.rs:319-322 | for the `+<line>` editors, file and line are recovered from the arguments |
| Editor.FileLineArgRoundTrip | src/main.rs:323 | for other editors, splitting the argument at its last ':' recovers file and line |
| Editor.FileLineArgAmbiguous | src/main.rs:323-325 | for every editor outside vi, vim, nvim and nano, every file `f` and line `n`: opening a file named `f:n` without a line gives the same arguments as opening `f` at line `n` |
| Editor.LineFlagArgAmbiguous | src/main.rs:319-325 | for vi, vim, nvim and nano, a file named `+<n>` opened without a line gets the same first argument as any file opened at line `n` |

## Left out

- Terminal setup and teardown, event polling with its 100 ms timeout, and drawing (src/main.rs:118-145, 170) are terminal I/O. `Dispatch.Run` consumes only the events that arrived.
- The snapshot tests (src/main.rs:386-437) need a real repository and terminal.
- `USE_DELTA` and `GIT_DIR` (src/main.rs:30-35) run processes at start-up and are read by no modelled code.
- `is_running` is taken to report the status seen by the event's poll (src/main.rs:152), for the whole event. A child that exits between the poll and `clear_finished_command` (src/main.rs:158) would in the source be cleared before `just_finished` could fire, losing the completion refresh; that race is not modelled, and the model instead refreshes at the next poll.
- Spawning processes, draining their output and the `command` module's `just_finished` are not part of this model. A spawn is the answer `SpawnResult`, and a poll is the answer `Poll`. `just_finished` is modelled as "running before this poll and exited now".
- The screen methods (`update`, `toggle_section`, `select_next`, `clamp_cursor` and the others) and `get_selected_item` belong to the `screen` module, which is not part of this model. Calls are recorded in each screen's effect log, and the selected item's target data is an input. A newly created screen starts `Unsized`.
- `keybinds::op_of_key_event` and the key table are an uninterpreted function in `Env`. `TargetOp::list_all` lives in the `keybinds` module, which is not part of this model; `Keybinds.AllTargetOps` lists the operations in the matrix's order (show, stage, unstage, rebase-interactive, fixup, autosquash, discard, checkout).
- The `git` module's command builders are names (`GitCmd`), so their argument vectors are not modelled. `Hunk::format_patch` and `Hunk::first_diff_line` are fields of `DiffHunk`, because the diff module is not part of this model.
- The patch text given to a command is kept as a string; its UTF-8 encoding into bytes is not modelled.
- Deleting a file (src/main.rs:283-286) is represented by its outcome only; the filesystem is not modelled.
- `State::create` does not model the `cli` argument parser, only the subcommand it yields.
- src/ops/reset.rs builds `git reset --soft/--mixed/--hard` commands through `create_rev_prompt` and `state.run_cmd`, which are not part of this model. It also belongs to a later module layout (`state::State`, `term::Term`) than the one `src/main.rs` declares.

=== FILE: app_state.dfy ===
/** The application state of `main.rs` and its methods: the quit flag, the
    screen stack (navigation history, top screen last), the pending
    prefix-key group, and the one command slot. */
module AppState {
  import opened Wrappers
  import opened Keybinds
  import opened Screens
  import opened Commands

  datatype State = State(
    quit: bool,
    screens: seq<Screen>,
    pending: TransientOp,
    command: Option<IssuedCommand>)

  /** The subcommand the program was started with. */
  datatype CliCommand =
    | ShowCommand(args: seq<string>)
    | LogCommand(args: seq<string>)
    | DiffCommand(args: seq<string>)

  /** The application quits exactly when its last screen is gone. */
  predicate Valid(st: State) {
    st.quit <==> |st.screens| == 0
  }

  /** A command exists and is still running. */
  predicate Busy(st: State) {
    st.command.Some? && st.command.value.running
  }

  /** The screen a start-up subcommand opens; plain start-up opens the status screen. */
  function InitialScreen(command: Option<CliCommand>, status: bool): ScreenKind {
    match command
    case Some(ShowCommand(args)) => ShowScreen(args)
    case Some(LogCommand(args)) => LogScreen(args)
    case Some(DiffCommand(args)) => DiffScreen(args)
    case None => StatusScreen(status)
  }

  /** `State::create`: one screen, nothing pending, no command. */
  function Create(command: Option<CliCommand>, status: bool): (st: State)
    ensures Valid(st) && !st.quit
    ensures |st.screens| == 1 && st.screens[0].kind == InitialScreen(command, status)
    ensures st.pending == Idle && st.command.None?
  {
    State(false, [NewScreen(InitialScreen(command, status))], Idle, None)
  }

  /** The command a successful spawn installs. */
  function Fresh(spec: CommandSpec, input: string, mode: Mode, running: bool): IssuedCommand {
    IssuedCommand(spec, input, mode, running, "")
  }

  /** Shared by both issue methods: spawn unless a command is running. */
  function Issue(st: State, input: string, spec: CommandSpec, mode: Mode, spawn: SpawnResult): Result<State, IoError> {
    if Busy(st) then Ok(st)
    else
      match spawn
      case Spawned(running) => Ok(st.(command := Some(Fresh(spec, input, mode, running))))
      case SpawnFailed(e) => Err(e)
  }

  /** `issue_command`: a running command is never replaced; otherwise the
      slot receives the freshly spawned captured command, or the spawn error
      is returned with the state untouched. */
  function IssueCommand(st: State, input: string, spec: CommandSpec, spawn: SpawnResult): (r: Result<State, IoError>)
    ensures Busy(st) ==> r == Ok(st)
    ensures !Busy(st) && spawn.Spawned? ==>
      r == Ok(st.(command := Some(Fresh(spec, input, Captured, spawn.running))))
    ensures !Busy(st) && spawn.SpawnFailed? ==> r == Err(spawn.err)
  {
    Issue(st, input, spec, Captured, spawn)
  }

  /** `issue_subscreen_command`: the same guard, for a command that is
      handed the terminal and gets no input. */
  function IssueSubscreenCommand(st: State, spec: CommandSpec, spawn: SpawnResult): (r: Result<State, IoError>)
    ensures Busy(st) ==> r == Ok(st)
    ensures !Busy(st) && spawn.Spawned? ==>
      r == Ok(st.(command := Some(Fresh(spec, "", Subscreen, spawn.running))))
    ensures !Busy(st) && spawn.SpawnFailed? ==> r == Err(spawn.err)
  {
    Issue(st, "", spec, Subscreen, spawn)
  }

  /** At most one command in flight: whatever is issued, by either method and
      whatever the spawn answer, a running command stays in its slot, and the
      state is otherwise unchanged. */
  lemma RunningCommandIsNeverReplaced(st: State, input: string, spec: CommandSpec, spawn: SpawnResult)
    requires Busy(st)
    ensures IssueCommand(st, input, spec, spawn) == Ok(st)
    ensures IssueSubscreenCommand(st, spec, spawn) == Ok(st)
  {
  }

  /** `clear_finished_command`: the slot is emptied exactly when it holds a
      finished command; a running command and an empty slot stay as they are. */
  function ClearFinishedCommand(st: State): (r: State)
    ensures r.quit == st.quit && r.screens == st.screens && r.pending == st.pending
    ensures r.command.None? <==> st.command.None? || !st.command.value.running
    ensures r.command.Some? ==> r.command == st.command
  {
    match st.command
    case Some(c) => if !c.running then st.(command := None) else st
    case None => st
  }

  /** After clearing, the next issue always spawns unless a command still runs. */
  lemma ClearedSlotAcceptsCommand(st: State, input: string, spec: CommandSpec, running: bool)
    requires !Busy(st)
    ensures IssueCommand(ClearFinishedCommand(st), input, spec, Spawned(running)).value.command
      == Some(Fresh(spec, input, Captured, running))
  {
  }

  /** The command finishes during this poll: `just_finished` fires. */
  predicate JustFinishes(st: State, poll: Poll) {
    Busy(st) && poll.exited
  }

  /** `handle_command_output`: the new output is appended to the command's
      buffer; when the command finishes now, it stops running and the top
      screen is refreshed. A finished command never runs again. */
  function HandleCommandOutput(st: State, poll: Poll): (r: State)
    requires JustFinishes(st, poll) ==> |st.screens| > 0
    ensures r.quit == st.quit && r.pending == st.pending && |r.screens| == |st.screens|
    ensures st.command.None? ==> r == st
    ensures st.command.Some? ==>
      && r.command.Some?
      && r.command.value.spec == st.command.value.spec
      && r.command.value.mode == st.command.value.mode
      && r.command.value.input == st.command.value.input
      && r.command.value.output == st.command.value.output + poll.output
    ensures Busy(r) <==> Busy(st) && !poll.exited
    ensures JustFinishes(st, poll) ==> r.screens == ApplyTop(st.screens, Refreshed)
    ensures !JustFinishes(st, poll) ==> r.screens == st.screens
  {
    match st.command
    case None => st
    case Some(c) =>
      var c' := c.(output := c.output + poll.output, running := c.running && !poll.exited);
      var s := st.(command := Some(c'));
      if c.running && poll.exited then s.(screens := ApplyTop(s.screens, Refreshed)) else s
  }

  /** The completion edge fires at most once: the poll after a finishing poll
      refreshes nothing, whatever it observes. */
  lemma JustFinishedFiresOnce(st: State, first: Poll, second: Poll)
    requires JustFinishes(st, first) && |st.screens| > 0
    ensures !JustFinishes(HandleCommandOutput(st, first), second)
    ensures HandleCommandOutput(HandleCommandOutput(st, first), second).screens
      == HandleCommandOutput(st, first).screens
  {
  }

  /** Keeps the bottom screen and drops the rest (`drain(1..)`). */
  function KeepBottom(screens: seq<Screen>): (r: seq<Screen>)
    requires |screens| > 0
    ensures r == [screens[0]]
  {
    screens[..1]
  }

  /** `goto_log_screen`: the bottom screen with a fresh log screen above it. */
  function GotoLogScreen(screens: seq<Screen>): (r: seq<Screen>)
    requires |screens| > 0
    ensures |r| == 2 && r[0] == screens[0] && r[1] == NewScreen(LogScreen([]))
  {
    KeepBottom(screens) + [NewScreen(LogScreen([]))]
  }

  /** `goto_refs_screen`: the bottom screen with a fresh refs screen above it. */
  function GotoRefsScreen(screens: seq<Screen>): (r: seq<Screen>)
    requires |screens| > 0
    ensures |r| == 2 && r[0] == screens[0] && r[1] == NewScreen(ShowRefsScreen)
  {
    KeepBottom(screens) + [NewScreen(ShowRefsScreen)]
  }

  /** Going to the log or refs screen depends only on the bottom screen,
      so repeating it, or doing it after the other, changes nothing more. */
  lemma GotoDependsOnlyOnBottom(screens: seq<Screen>, other: seq<Screen>)
    requires |screens| > 0 && |other| > 0 && screens[0] == other[0]
    ensures GotoLogScreen(screens) == GotoLogScreen(other)
    ensures GotoRefsScreen(screens) == GotoRefsScreen(other)
    ensures GotoLogScreen(GotoLogScreen(screens)) == GotoLogScreen(screens)
    ensures GotoLogScreen(GotoRefsScreen(screens)) == GotoLogScreen(screens)
    ensures GotoRefsScreen(GotoRefsScreen(screens)) == GotoRefsScreen(screens)
    ensures GotoRefsScreen(GotoLogScreen(screens)) == GotoRefsScreen(screens)
  {
  }
}

=== FILE: commands.dfy ===
/** The command subsystem as seen from the application state: which command
    was issued, in which mode, whether it still runs, and what it printed.
    Spawning, draining pipes and the edge detection of `just_finished` are the
    `command` module's business; their answers enter the model as values. */
module Commands {
  import opened Wrappers

  /** An operating-system error, kept opaque. */
  datatype IoError = IoError(description: string)

  /** The git command builders of the `git` module, by name. */
  datatype GitCmd =
    | CommitCmd
    | CommitAmendCmd
    | FetchAllCmd
    | PullCmd
    | PushCmd
    | RebaseAbortCmd
    | RebaseContinueCmd
    | StageFileCmd
    | UnstageFileCmd
    | StagePatchCmd
    | UnstagePatchCmd
    | DiscardUnstagedPatchCmd
    | CheckoutFileCmd
    | CheckoutRefCmd
    | RebaseInteractiveCmd
    | CommitFixupCmd
    | RebaseAutosquashCmd

  /** A process to start: a git command (with its one argument, if any) or
      an arbitrary program with an argument list. */
  datatype CommandSpec =
    | Git(cmd: GitCmd, arg: Option<string>)
    | Program(program: string, args: seq<string>)

  /** Captured: output piped into a buffer. Subscreen: the child owns the terminal. */
  datatype Mode = Captured | Subscreen

  datatype IssuedCommand = IssuedCommand(
    spec: CommandSpec,
    input: string,
    mode: Mode,
    running: bool,
    output: string)

  /** What the operating system answers to a spawn request. */
  datatype SpawnResult = Spawned(running: bool) | SpawnFailed(err: IoError)

  /** What one non-blocking poll of the live command observed: newly read
      output, and whether the child has exited. */
  datatype Poll = Poll(output: string, exited: bool)
}

=== FILE: dispatch.dfy ===
/** Key dispatch and the event step of `main.rs`: `handle_op` with its
    two-level (prefix group, then operation) state machine, the running of a
    target operation's action, `update`, and the loop that feeds `update`. */
module Dispatch {
  import opened Wrappers
  import opened Ints
  import opened Keybinds
  import opened Items
  import opened Screens
  import opened Commands
  import opened Editor
  import opened TargetOps
  import opened AppState

  /** What the outside world answers while one event is handled: the key
      table, the target data of the top screen's selected item, `$EDITOR`,
      the operating system's answer to a spawn, the outcome of deleting a
      file, and what polling the live command observes. */
  datatype Env = Env(
    lookup: (TransientOp, KeyEvent) -> Option<Op>,
    selection: Option<TargetData>,
    editorVar: Option<string>,
    spawn: SpawnResult,
    removal: Result<(), IoError>,
    poll: Poll)

  /** How handling an event ended: normally, with an error returned through
      `?` (which ends the program), or with a panic from `.expect`. */
  datatype Outcome = Continue | Failed(err: IoError) | Panicked(reason: string)

  datatype Step = Step(state: State, outcome: Outcome)

  /** Calls one method on the top screen of the state; the screens below
      it, the pending group, the quit flag and the command slot stay. */
  function OnTop(st: State, e: Effect): (r: State)
    requires |st.screens| > 0
    ensures r.quit == st.quit && r.pending == st.pending && r.command == st.command
    ensures |r.screens| == |st.screens|
    ensures forall i :: 0 <= i < |st.screens| - 1 ==> r.screens[i] == st.screens[i]
    ensures r.screens[|r.screens| - 1] == Apply(st.screens[|st.screens| - 1], e)
  {
    st.(screens := ApplyTop(st.screens, e))
  }

  /** The end of an issuing branch: a spawn error is returned as is;
      otherwise the top screen is refreshed if the branch asks for it. */
  function AfterIssue(st: State, issued: Result<State, IoError>, refresh: bool): (r: Step)
    requires issued.Ok? ==> |issued.value.screens| > 0
    ensures issued.Err? ==> r == Step(st, Failed(issued.error))
    ensures issued.Ok? ==>
      r == Step(if refresh then OnTop(issued.value, Refreshed) else issued.value, Continue)
  {
    match issued
    case Err(e) => Step(st, Failed(e))
    case Ok(s) => Step(if refresh then OnTop(s, Refreshed) else s, Continue)
  }

  /** The same for a closure, which panics on a spawn error. */
  function AfterClosureIssue(st: State, issued: Result<State, IoError>, reason: string): Step
    requires issued.Ok? ==> |issued.value.screens| > 0
  {
    match issued
    case Err(_) => Step(st, Panicked(reason))
    case Ok(s) => Step(OnTop(s, Refreshed), Continue)
  }

  /** The actions that go through the command subsystem. */
  predicate IssuesCommand(a: Action) {
    a.OpenEditor? || a.RunCmd? || a.RunPatch? || a.RunSubscreen?
  }

  /** Running an action: pushing a `show` screen adds exactly that screen;
      every other action ends by refreshing the top screen. Issuing actions
      spawn only when no command is running; a missing `$EDITOR`, a failed
      spawn or a failed deletion panics. Nothing else in the state changes. */
  function RunAction(st: State, a: Action, env: Env): (r: Step)
    requires |st.screens| > 0
    ensures r.state.quit == st.quit && r.state.pending == st.pending
    ensures r.outcome.Continue? && a.PushShow? ==>
      r.state.screens == st.screens + [NewScreen(ShowScreen([a.reference]))]
    ensures r.outcome.Continue? && !a.PushShow? ==>
      r.state.screens == ApplyTop(st.screens, Refreshed)
    ensures !r.outcome.Failed?
    ensures r.outcome.Panicked? <==>
      || (a.OpenEditor? && env.editorVar.None?)
      || (IssuesCommand(a) && !Busy(st) && env.spawn.SpawnFailed?)
      || (a.RemoveFile? && env.removal.Err?)
    ensures r.outcome.Panicked? ==> r.state == st
    ensures Busy(st) || !IssuesCommand(a) ==> r.state.command == st.command
    ensures r.outcome.Continue? && a.OpenEditor? && !Busy(st) ==>
      r.state.command == Some(Fresh(Program(env.editorVar.value,
        EditorArgs(env.editorVar.value, a.file, a.line)), "", Subscreen, env.spawn.running))
    ensures r.outcome.Continue? && a.RunPatch? && !Busy(st) ==>
      r.state.command == Some(Fresh(Git(a.cmd, None), a.patch, Captured, env.spawn.running))
    ensures r.outcome.Continue? && (a.RunCmd? || a.RunSubscreen?) && !Busy(st) ==>
      r.state.command == Some(Fresh(Git(a.cmd, Some(a.arg)), "",
        if a.RunCmd? then Captured else Subscreen, env.spawn.running))
  {
    match a
    case PushShow(reference) =>
      Step(st.(screens := st.screens + [NewScreen(ShowScreen([reference]))]), Continue)
    case OpenEditor(file, line) =>
      (match env.editorVar
       case None => Step(st, Panicked("EDITOR not set"))
       case Some(editor) =>
         var spec := Program(editor, EditorArgs(editor, file, line));
         AfterClosureIssue(st, IssueSubscreenCommand(st, spec, env.spawn), "Error opening editor"))
    case RunCmd(cmd, arg) =>
      AfterClosureIssue(st, IssueCommand(st, "", Git(cmd, Some(arg)), env.spawn), "Error unstaging hunk")
    case RunPatch(cmd, patch) =>
      AfterClosureIssue(st, IssueCommand(st, patch, Git(cmd, None), env.spawn), "Error unstaging hunk")
    case RunSubscreen(cmd, arg) =>
      AfterClosureIssue(st, IssueSubscreenCommand(st, Git(cmd, Some(arg)), env.spawn), "Error issuing command")
    case RemoveFile(_) =>
      match env.removal
      case Err(_) => Step(st, Panicked("Error removing file"))
      case Ok(_) => Step(OnTop(st, Refreshed), Continue)
  }

  /** The group keys are looked up in: a pending `Help` counts as no group. */
  function LookupGroup(pending: TransientOp): (g: TransientOp)
    ensures g != Help
    ensures pending != Help ==> g == pending
  {
    if pending == Help then Idle else pending
  }

  /** What a key resolves to in the current state. */
  function Resolve(st: State, key: KeyEvent, env: Env): Option<Op> {
    env.lookup(LookupGroup(st.pending), key)
  }

  /** The pending group after an operation resolved. */
  function PendingAfter(op: Op): TransientOp {
    if op.Transient? then op.group else Idle
  }

  /** Operations that return spawn errors through `?`. */
  predicate ReturnsSpawnError(op: Op) {
    op.Commit? || op.CommitAmend? || op.FetchAll? || op.PullRemote? || op.PushRemote?
    || op.RebaseAbort? || op.RebaseContinue?
  }

  /** The key resolves to nothing, or to an operation that issues no command. */
  predicate IssuesNothing(resolved: Option<Op>) {
    resolved.None? || (!ReturnsSpawnError(resolved.value) && !resolved.value.Target?)
  }

  /** `Quit` pressed with nothing pending on the last screen: the program ends. */
  predicate QuitsApp(st: State, key: KeyEvent, env: Env) {
    Resolve(st, key, env) == Some(Quit) && st.pending == Idle && |st.screens| == 1
  }

  /** `Quit` with nothing pending: pop the top screen and refresh the one
      below it, or quit when none is left. */
  function PopScreen(st: State): (r: State)
    requires |st.screens| > 0
    ensures |r.screens| == |st.screens| - 1
    ensures forall i :: 0 <= i < |r.screens| - 1 ==> r.screens[i] == st.screens[i]
    ensures |r.screens| > 0 ==> r.screens[|r.screens| - 1] == Apply(st.screens[|st.screens| - 2], Refreshed)
    ensures r.quit <==> st.quit || |r.screens| == 0
    ensures r.pending == st.pending && r.command == st.command
  {
    var rest := st.screens[..|st.screens| - 1];
    if |rest| > 0 then st.(screens := ApplyTop(rest, Refreshed))
    else st.(screens := rest, quit := true)
  }

  /** The screen method an operation calls on the top screen, if it is one
      of the plain screen operations. */
  function ScreenMethod(op: Op): Option<Effect> {
    match op
    case Refresh => Some(Refreshed)
    case ToggleSection => Some(SectionToggled)
    case SelectPrevious => Some(MovedPrevious)
    case SelectNext => Some(MovedNext)
    case HalfPageUp => Some(ScrolledHalfPageUp)
    case HalfPageDown => Some(ScrolledHalfPageDown)
    case _ => None
  }

  /** The git command an issuing operation runs. */
  function IssuedGitCmd(op: Op): GitCmd
    requires ReturnsSpawnError(op)
  {
    match op
    case Commit => CommitCmd
    case CommitAmend => CommitAmendCmd
    case FetchAll => FetchAllCmd
    case PullRemote => PullCmd
    case PushRemote => PushCmd
    case RebaseAbort => RebaseAbortCmd
    case RebaseContinue => RebaseContinueCmd
  }

  /** Commit and amend hand the terminal to git; the other issuing operations run captured. */
  function IssueMode(op: Op): Mode {
    if op == Commit || op == CommitAmend then Subscreen else Captured
  }

  /** Pull and push leave the screen alone; the other issuing operations
      refresh it after issuing. */
  predicate RefreshesAfterIssue(op: Op) {
    !op.PullRemote? && !op.PushRemote?
  }

  /** Issues `spec` in `mode` with no input, then refreshes the top screen
      when `refresh` is set; a spawn error is returned and changes nothing. */
  function IssueThenRefresh(s: State, spec: CommandSpec, mode: Mode, refresh: bool, spawn: SpawnResult): (r: Step)
    requires |s.screens| > 0
    ensures r.state.pending == s.pending && r.state.quit == s.quit
    ensures Busy(s) ==> r == Step(if refresh then OnTop(s, Refreshed) else s, Continue)
    ensures !Busy(s) && spawn.Spawned? ==>
      r.outcome.Continue? && r.state.command == Some(Fresh(spec, "", mode, spawn.running))
    ensures !Busy(s) && spawn.SpawnFailed? ==> r == Step(s, Failed(spawn.err))
    ensures r.outcome.Continue? ==>
      r.state.screens == if refresh then ApplyTop(s.screens, Refreshed) else s.screens
  {
    match mode
    case Subscreen => AfterIssue(s, IssueSubscreenCommand(s, spec, spawn), refresh)
    case Captured => AfterIssue(s, IssueCommand(s, "", spec, spawn), refresh)
  }

  /** The operations that issue a git command directly: commit and amend
      hand over the terminal, the others run captured; pull and push do not
      refresh the screen. A spawn error is returned, and nothing changes. */
  function IssueStep(s: State, op: Op, env: Env): (r: Step)
    requires |s.screens| > 0 && ReturnsSpawnError(op)
    ensures r.state.pending == s.pending && r.state.quit == s.quit
    ensures Busy(s) ==> r.state.command == s.command
    ensures |r.state.screens| == |s.screens|
    ensures forall i :: 0 <= i < |s.screens| - 1 ==> r.state.screens[i] == s.screens[i]
    ensures r.outcome.Failed? ==> env.spawn.SpawnFailed?
    ensures !r.outcome.Panicked?
    ensures !Busy(s) && env.spawn.Spawned? ==>
      r.state.command == Some(Fresh(Git(IssuedGitCmd(op), None), "", IssueMode(op), env.spawn.running))
    ensures !Busy(s) && env.spawn.SpawnFailed? ==> r == Step(s, Failed(env.spawn.err))
    ensures Busy(s) || env.spawn.Spawned? ==> r.outcome.Continue?
    ensures r.outcome.Continue? ==>
      r.state.screens == if RefreshesAfterIssue(op) then ApplyTop(s.screens, Refreshed) else s.screens
  {
    IssueThenRefresh(s, Git(IssuedGitCmd(op), None), IssueMode(op), RefreshesAfterIssue(op), env.spawn)
  }

  /** `Target(op)`: run the matrix's action for the selected item, if it
      has target data and the matrix defines the operation for it. */
  function TargetStep(st: State, targetOp: TargetOp, env: Env): (r: Step)
    requires |st.screens| > 0
    ensures r.state.quit == st.quit && r.state.pending == st.pending
    ensures Busy(st) ==> r.state.command == st.command
    ensures !r.outcome.Failed?
    ensures |r.state.screens| >= |st.screens|
    ensures forall i :: 0 <= i < |st.screens| - 1 ==> r.state.screens[i] == st.screens[i]
    ensures env.selection.None? ==> r == Step(st, Continue)
    ensures env.selection.Some? && ClosureByTargetOp(env.selection.value, targetOp).Some? ==>
      r == RunAction(st, ClosureByTargetOp(env.selection.value, targetOp).value, env)
    ensures env.selection.Some? && ClosureByTargetOp(env.selection.value, targetOp).None? ==>
      r == Step(st, Continue)
  {
    match env.selection
    case None => Step(st, Continue)
    case Some(t) =>
      match ClosureByTargetOp(t, targetOp)
      case None => Step(st, Continue)
      case Some(a) => RunAction(st, a, env)
  }

  /** The operations that only move between screens or prefix groups. */
  predicate Navigates(op: Op) {
    op.Quit? || op.Transient? || op.LogCurrent? || op.ShowRefs?
  }

  /** `Quit`, a prefix key, `LogCurrent` and `ShowRefs`: none of them
      touches the command slot, and only `Quit` can empty the stack. */
  function Navigate(s: State, op: Op, wasTransient: bool): (r: State)
    requires |s.screens| > 0 && Navigates(op)
    ensures r.pending == (if op.Transient? then op.group else s.pending)
    ensures r.command == s.command
    ensures r.quit <==> s.quit || (op == Quit && !wasTransient && |s.screens| == 1)
    ensures |r.screens| == 0 <==> op == Quit && !wasTransient && |s.screens| == 1
    ensures op == Quit ==> r == (if wasTransient then s else PopScreen(s))
    ensures op.Transient? ==> r == s.(pending := op.group)
    ensures op == LogCurrent ==> r.screens == GotoLogScreen(s.screens)
    ensures op == ShowRefs ==> r.screens == GotoRefsScreen(s.screens)
  {
    match op
    case Quit => if wasTransient then s else PopScreen(s)
    case Transient(group) => s.(pending := group)
    case LogCurrent => s.(screens := GotoLogScreen(s.screens))
    case ShowRefs => s.(screens := GotoRefsScreen(s.screens))
  }

  /** The operations that act on the top screen or issue a command: the
      pending group, the quit flag and the screens below the top stay. */
  function Act(s: State, op: Op, env: Env): (r: Step)
    requires |s.screens| > 0 && !Navigates(op)
    ensures r.state.pending == s.pending && r.state.quit == s.quit
    ensures Busy(s) ==> r.state.command == s.command
    ensures |r.state.screens| >= |s.screens|
    ensures forall i :: 0 <= i < |s.screens| - 1 ==> r.state.screens[i] == s.screens[i]
    ensures r.outcome.Failed? ==> ReturnsSpawnError(op) && env.spawn.SpawnFailed?
    ensures r.outcome.Panicked? ==> op.Target?
    ensures ScreenMethod(op).Some? ==> r == Step(OnTop(s, ScreenMethod(op).value), Continue)
    ensures ReturnsSpawnError(op) ==> r == IssueStep(s, op, env)
    ensures op.Target? ==> r == TargetStep(s, op.targetOp, env)
    ensures !ReturnsSpawnError(op) && !op.Target? ==> r.state.command == s.command
  {
    if op.Target? then TargetStep(s, op.targetOp, env)
    else if ReturnsSpawnError(op) then IssueStep(s, op, env)
    else Step(OnTop(s, ScreenMethod(op).value), Continue)
  }

  /** Performs a resolved operation on a state whose pending group is already
      cleared; `wasTransient` says whether one was pending before. */
  function Perform(s: State, op: Op, wasTransient: bool, env: Env): (r: Step)
    requires |s.screens| > 0
    ensures r.state.pending == (if op.Transient? then op.group else s.pending)
    ensures Busy(s) ==> r.state.command == s.command
    ensures r.state.quit <==> s.quit || (op == Quit && !wasTransient && |s.screens| == 1)
    ensures |r.state.screens| == 0 <==> op == Quit && !wasTransient && |s.screens| == 1
    ensures op == Quit ==> r == Step(if wasTransient then s else PopScreen(s), Continue)
    ensures op.Transient? ==> r == Step(s.(pending := op.group), Continue)
    ensures !op.Quit? && !op.LogCurrent? && !op.ShowRefs? ==>
      && |r.state.screens| >= |s.screens|
      && forall i :: 0 <= i < |s.screens| - 1 ==> r.state.screens[i] == s.screens[i]
    ensures op == LogCurrent ==> r.state.screens == GotoLogScreen(s.screens)
    ensures op == ShowRefs ==> r.state.screens == GotoRefsScreen(s.screens)
    ensures r.outcome.Failed? ==> ReturnsSpawnError(op) && env.spawn.SpawnFailed?
    ensures r.outcome.Panicked? ==> op.Target?
    ensures ScreenMethod(op).Some? ==> r == Step(OnTop(s, ScreenMethod(op).value), Continue)
    ensures ReturnsSpawnError(op) ==> r == IssueStep(s, op, env)
    ensures op.Target? ==> r == TargetStep(s, op.targetOp, env)
    ensures !ReturnsSpawnError(op) && !op.Target? ==> r.state.command == s.command
  {
    if Navigates(op) then Step(Navigate(s, op, wasTransient), Continue)
    else Act(s, op, env)
  }

  /** `handle_op`. An unresolved key changes nothing. A resolved key clears
      the pending group, and a prefix key sets it again. `Quit` while a group
      (or help) was pending only cancels it; otherwise it removes exactly the
      top screen and quits exactly when none is left. Only `Quit` and the two
      navigation operations touch screens below the top one. A running
      command survives every operation. */
  function HandleOp(st: State, key: KeyEvent, env: Env): (r: Step)
    requires |st.screens| > 0
    ensures Resolve(st, key, env).None? ==> r == Step(st, Continue)
    ensures Resolve(st, key, env).Some? ==> r.state.pending == PendingAfter(Resolve(st, key, env).value)
    ensures Busy(st) ==> r.state.command == st.command
    ensures r.state.quit <==> st.quit || QuitsApp(st, key, env)
    ensures |r.state.screens| == 0 <==> QuitsApp(st, key, env)
    ensures Resolve(st, key, env) == Some(Quit) && st.pending != Idle ==>
      r == Step(st.(pending := Idle), Continue)
    ensures Resolve(st, key, env) == Some(Quit) && st.pending == Idle ==>
      r == Step(PopScreen(st.(pending := Idle)), Continue)
    ensures Resolve(st, key, env) !in {Some(Quit), Some(LogCurrent), Some(ShowRefs)} ==>
      && |r.state.screens| >= |st.screens|
      && forall i :: 0 <= i < |st.screens| - 1 ==> r.state.screens[i] == st.screens[i]
    ensures Resolve(st, key, env) == Some(LogCurrent) ==> r.state.screens == GotoLogScreen(st.screens)
    ensures Resolve(st, key, env) == Some(ShowRefs) ==> r.state.screens == GotoRefsScreen(st.screens)
    ensures r.outcome.Failed? ==>
      Resolve(st, key, env).Some? && ReturnsSpawnError(Resolve(st, key, env).value) && env.spawn.SpawnFailed?
    ensures r.outcome.Panicked? ==> Resolve(st, key, env).Some? && Resolve(st, key, env).value.Target?
    ensures Resolve(st, key, env).Some? && ScreenMethod(Resolve(st, key, env).value).Some? ==>
      r == Step(OnTop(st.(pending := Idle), ScreenMethod(Resolve(st, key, env).value).value), Continue)
    ensures Resolve(st, key, env).Some? && ReturnsSpawnError(Resolve(st, key, env).value) ==>
      r == IssueStep(st.(pending := Idle), Resolve(st, key, env).value, env)
    ensures Resolve(st, key, env).Some? && Resolve(st, key, env).value.Target? ==>
      r == TargetStep(st.(pending := Idle), Resolve(st, key, env).value.targetOp, env)
    ensures IssuesNothing(Resolve(st, key, env)) ==> r.state.command == st.command
    ensures Resolve(st, key, env).Some? && Resolve(st, key, env).value.Transient? ==>
      r == Step(st.(pending := Resolve(st, key, env).value.group), Continue)
  {
    match Resolve(st, key, env)
    case None => Step(st, Continue)
    case Some(op) => Perform(st.(pending := Idle), op, st.pending != Idle, env)
  }

  /** While help is shown, keys are looked up in the base table, and the
      next resolved key dismisses it: `Quit` then only closes the help. */
  lemma HelpIsDismissedByNextKey(st: State, key: KeyEvent, env: Env)
    requires |st.screens| > 0 && st.pending == Help
    requires Resolve(st, key, env).Some? && !Resolve(st, key, env).value.Transient?
    ensures Resolve(st, key, env) == env.lookup(Idle, key)
    ensures HandleOp(st, key, env).state.pending == Idle
    ensures Resolve(st, key, env) == Some(Quit) ==>
      HandleOp(st, key, env) == Step(st.(pending := Idle), Continue)
  {
  }

  /** A key that resolves to nothing inside a prefix group leaves the group
      pending and the state unchanged. */
  lemma UnmatchedKeyKeepsGroup(st: State, key: KeyEvent, env: Env)
    requires |st.screens| > 0 && Resolve(st, key, env).None?
    ensures HandleOp(st, key, env) == Step(st, Continue)
    ensures Update(st, Key(key), env).state.pending == st.pending
  {
  }

  /** A terminal event: a resize, a key, or anything else (focus, mouse, paste). */
  datatype Event = Resize(width: u16, height: u16) | Key(key: KeyEvent) | OtherEvent

  /** Clamps the cursor of the top screen, if there is one. */
  function ClampTop(st: State): (r: State)
    ensures |st.screens| > 0 ==> r == OnTop(st, CursorClamped)
    ensures |st.screens| == 0 ==> r == st
  {
    if |st.screens| > 0 then OnTop(st, CursorClamped) else st
  }

  /** Gives the top screen a new size. */
  function ResizeTop(st: State, width: u16, height: u16): (r: State)
    requires |st.screens| > 0
    ensures |r.screens| == |st.screens|
    ensures forall i :: 0 <= i < |st.screens| - 1 ==> r.screens[i] == st.screens[i]
    ensures r.screens[|r.screens| - 1] == st.screens[|st.screens| - 1].(size := Sized(width, height))
    ensures r.quit == st.quit && r.pending == st.pending && r.command == st.command
  {
    var n := |st.screens|;
    st.(screens := st.screens[..n - 1] + [st.screens[n - 1].(size := Sized(width, height))])
  }

  /** Only a key press is dispatched to `handle_op`. */
  predicate IsPress(ev: Event) {
    ev.Key? && ev.key.kind == Press
  }

  /** The state a key press is handled in: the live command polled, then a
      finished one cleared from the slot. */
  function Prepared(st: State, env: Env): (r: State)
    requires |st.screens| > 0
    ensures r.quit == st.quit && r.pending == st.pending && |r.screens| == |st.screens|
    ensures r.command.None? <==>
      st.command.None? || !st.command.value.running || env.poll.exited
  {
    ClearFinishedCommand(HandleCommandOutput(st, env.poll))
  }

  /** `update`: poll the live command, then dispatch the event. Only key
      presses reach `handle_op` (after a finished command is cleared), so
      only they can quit, change the pending group or fail; an error from
      it ends the step at once; otherwise the top screen's cursor is
      clamped. Every step keeps the application valid. */
  function Update(st: State, ev: Event, env: Env): (r: Step)
    requires |st.screens| > 0
    ensures Valid(st) ==> Valid(r.state)
    ensures !r.outcome.Continue? ==> IsPress(ev)
    ensures !IsPress(ev) ==> r.state.pending == st.pending && r.state.quit == st.quit
    ensures !IsPress(ev) ==> r.state.command == HandleCommandOutput(st, env.poll).command
    ensures IsPress(ev) ==> (r.state.quit <==> st.quit || QuitsApp(Prepared(st, env), ev.key, env))
    ensures IsPress(ev) && Resolve(Prepared(st, env), ev.key, env).Some? ==>
      r.state.pending == PendingAfter(Resolve(Prepared(st, env), ev.key, env).value)
    ensures IsPress(ev) && Resolve(Prepared(st, env), ev.key, env).None? ==>
      r == Step(ClampTop(Prepared(st, env)), Continue)
    ensures IsPress(ev) && IssuesNothing(Resolve(Prepared(st, env), ev.key, env)) ==>
      r.state.command == Prepared(st, env).command
    ensures ev.Resize? ==>
      r == Step(ClampTop(ResizeTop(HandleCommandOutput(st, env.poll), ev.width, ev.height)), Continue)
    ensures ev.OtherEvent? || (ev.Key? && !IsPress(ev)) ==>
      r == Step(ClampTop(HandleCommandOutput(st, env.poll)), Continue)
  {
    match ev
    case Resize(w, h) => Step(ClampTop(ResizeTop(HandleCommandOutput(st, env.poll), w, h)), Continue)
    case Key(k) =>
      if k.kind == Press then
        var h := HandleOp(Prepared(st, env), k, env);
        if h.outcome.Continue? then Step(ClampTop(h.state), Continue) else h
      else Step(ClampTop(HandleCommandOutput(st, env.poll)), Continue)
    case OtherEvent => Step(ClampTop(HandleCommandOutput(st, env.poll)), Continue)
  }

  /** A key press is handled by `handle_op` on the polled and cleared state;
      its error ends the step, and otherwise the top screen's cursor is
      clamped. */
  lemma PressIsHandleOp(st: State, k: KeyEvent, env: Env)
    requires |st.screens| > 0 && k.kind == Press
    ensures var h := HandleOp(Prepared(st, env), k, env);
            Update(st, Key(k), env) == if h.outcome.Continue? then Step(ClampTop(h.state), Continue) else h
  {
  }

  /** A command that has finished by the time a key is pressed is gone from
      the slot after that press, unless the press issues a new one. */
  lemma FinishedCommandClearedByPress(st: State, k: KeyEvent, env: Env)
    requires |st.screens| > 0 && k.kind == Press
    requires st.command.Some? && (!st.command.value.running || env.poll.exited)
    requires IssuesNothing(Resolve(Prepared(st, env), k, env))
    ensures Update(st, Key(k), env).state.command.None?
  {
  }

  /** Without a key press a finished command stays in the slot. */
  lemma FinishedCommandKeptWithoutPress(st: State, ev: Event, env: Env)
    requires |st.screens| > 0 && !IsPress(ev)
    requires st.command.Some? && (!st.command.value.running || env.poll.exited)
    ensures Update(st, ev, env).state.command.Some?
    ensures !Busy(Update(st, ev, env).state)
  {
  }

  /** Key events other than presses are ignored like any non-key event. */
  lemma NonPressKeysIgnored(st: State, k: KeyEvent, env: Env)
    requires |st.screens| > 0 && k.kind != Press
    ensures Update(st, Key(k), env) == Update(st, OtherEvent, env)
  {
  }

  /** A resize differs from an ignored event only in the top screen's size. */
  lemma ResizeOnlyResizesTop(st: State, w: u16, h: u16, env: Env)
    requires |st.screens| > 0
    ensures var r := Update(st, Resize(w, h), env).state;
            var o := Update(st, OtherEvent, env).state;
            && r.quit == o.quit && r.pending == o.pending && r.command == o.command
            && |r.screens| == |o.screens| == |st.screens|
            && (forall i :: 0 <= i < |st.screens| - 1 ==> r.screens[i] == o.screens[i])
            && r.screens[|st.screens| - 1] == o.screens[|st.screens| - 1].(size := Sized(w, h))
  {
  }

  /** A command that keeps running through a step is still the same command
      after it, whatever the event: at most one command is ever in flight. */
  lemma RunningCommandSurvivesUpdate(st: State, ev: Event, env: Env)
    requires |st.screens| > 0 && Busy(st) && !env.poll.exited
    ensures var c := st.command.value;
            Update(st, ev, env).state.command == Some(c.(output := c.output + env.poll.output))
  {
  }

  /** Where the event loop stopped: the final state, why it stopped, and how
      many events it consumed. */
  datatype Stop = Stop(state: State, outcome: Outcome, handled: nat)

  /** The event loop: `update` runs for each event while the application has
      not quit, and an error or panic ends it. It stops early only because
      the application quit or an update failed, and then the last event it
      consumed was a key press. The application stays valid. */
  function Run(st: State, events: seq<(Event, Env)>): (r: Stop)
    requires Valid(st)
    ensures Valid(r.state)
    ensures r.handled <= |events|
    ensures st.quit ==> r == Stop(st, Continue, 0)
    ensures r.handled == 0 ==> r.state == st && r.outcome.Continue?
    ensures r.outcome.Continue? && r.handled < |events| ==> r.state.quit
    ensures !st.quit && |events| > 0 ==> r.handled > 0
    ensures !r.outcome.Continue? ==> r.handled > 0 && IsPress(events[r.handled - 1].0)
    ensures r.handled > 0 && r.state.quit ==> IsPress(events[r.handled - 1].0)
    decreases |events|, 1
  {
    if st.quit || |events| == 0 then Stop(st, Continue, 0)
    else RunFrom(st, events)
  }

  /** One turn of the loop for an application that has not quit: `update`
      the first event, then carry on with the rest unless it failed. */
  function RunFrom(st: State, events: seq<(Event, Env)>): (r: Stop)
    requires Valid(st) && !st.quit && |events| > 0
    ensures Valid(r.state)
    ensures 0 < r.handled <= |events|
    ensures r.outcome.Continue? && r.handled < |events| ==> r.state.quit
    ensures !r.outcome.Continue? || r.state.quit ==> IsPress(events[r.handled - 1].0)
    decreases |events|, 0
  {
    var s := Update(st, events[0].0, events[0].1);
    if s.outcome.Continue? then
      var rest := Run(s.state, events[1..]);
      assert rest.handled > 0 ==> events[1..][rest.handled - 1] == events[rest.handled];
      Stop(rest.state, rest.outcome, rest.handled + 1)
    else Stop(s.state, s.outcome, 1)
  }

  /** The first event of a running application is one `update`; with
      `update(...)?`, a failed or panicking update ends the loop whatever
      events follow it. */
  lemma {:induction false} RunFirstEvent(st: State, events: seq<(Event, Env)>)
    requires Valid(st) && !st.quit && |events| > 0
    ensures var u := Update(st, events[0].0, events[0].1);
            |events| == 1 || !u.outcome.Continue? ==> Run(st, events) == Stop(u.state, u.outcome, 1)
  {
    assert Run(st, events) == RunFrom(st, events);
  }

  /** One continuing update, then the loop on the remaining events. */
  lemma {:induction false} RunCons(st: State, events: seq<(Event, Env)>)
    requires Valid(st) && !st.quit && |events| > 0
    requires Update(st, events[0].0, events[0].1).outcome.Continue?
    ensures var rest := Run(Update(st, events[0].0, events[0].1).state, events[1..]);
            Run(st, events) == Stop(rest.state, rest.outcome, rest.handled + 1)
  {
    assert Run(st, events) == RunFrom(st, events);
  }

  /** Running two batches of events in a row is running them together, as
      long as the first batch is consumed completely and does not quit. */
  lemma {:induction false} RunSplit(st: State, a: seq<(Event, Env)>, b: seq<(Event, Env)>)
    requires Valid(st)
    requires Run(st, a).outcome.Continue? && Run(st, a).handled == |a| && !Run(st, a).state.quit
    ensures var m := Run(st, a);
            var n := Run(m.state, b);
            Run(st, a + b) == Stop(n.state, n.outcome, |a| + n.handled)
    decreases |a|
  {
    if |a| == 0 {
      assert a + b == b;
    } else {
      var s := Update(st, a[0].0, a[0].1);
      if !s.outcome.Continue? {
        RunFirstEvent(st, a);
        assert false;
      }
      var ab := a + b;
      assert ab[0] == a[0] && ab[1..] == a[1..] + b;
      RunCons(st, a);
      RunCons(st, ab);
      RunSplit(s.state, a[1..], b);
    }
  }

  /** Same process: the same command, input and mode, whatever it has printed. */
  predicate SameCommand(a: IssuedCommand, b: IssuedCommand) {
    a.spec == b.spec && a.input == b.input && a.mode == b.mode
  }

  /** As long as the live command does not exit, no sequence of events
      replaces or drops it. */
  lemma {:induction false} RunKeepsRunningCommand(st: State, events: seq<(Event, Env)>)
    requires Valid(st) && Busy(st)
    requires forall k :: 0 <= k < |events| ==> !events[k].1.poll.exited
    ensures Busy(Run(st, events).state)
    ensures SameCommand(Run(st, events).state.command.value, st.command.value)
    decreases |events|
  {
    if !st.quit && |events| > 0 {
      RunningCommandSurvivesUpdate(st, events[0].0, events[0].1);
      var s := Update(st, events[0].0, events[0].1);
      if s.outcome.Continue? {
        RunCons(st, events);
        var rest := events[1..];
        assert forall k :: 0 <= k < |rest| ==> rest[k] == events[k + 1];
        RunKeepsRunningCommand(s.state, rest);
      } else {
        RunFirstEvent(st, events);
      }
    }
  }
}

=== FILE: editor.dfy ===
/** The argument convention used to open a file, optionally at a line, in the
    user's editor. The editor's name is a parameter (the application reads it
    from the environment). */
module Editor {
  import opened Wrappers
  import opened Ints

  predicate IsDigit(c: char) {
    '0' <= c <= '9'
  }

  predicate AllDigits(s: string) {
    forall i :: 0 <= i < |s| ==> IsDigit(s[i])
  }

  function DigitChar(d: nat): (c: char)
    requires d < 10
    ensures IsDigit(c)
  {
    (48 + d) as char
  }

  function DigitValue(c: char): (d: nat)
    requires IsDigit(c)
    ensures d < 10 && DigitChar(d) == c
  {
    (c as int - 48) as nat
  }

  /** Decimal rendering of a number, as `format!("{}", n)` writes it: a
      non-empty string of digits without leading zeros. */
  function Decimal(n: nat): (s: string)
    ensures |s| > 0 && AllDigits(s)
    ensures s[0] == '0' ==> n == 0
    decreases n
  {
    if n < 10 then [DigitChar(n)] else Decimal(n / 10) + [DigitChar(n % 10)]
  }

  /** Reads a string of digits back as a number. */
  function ParseDecimal(s: string): nat
    requires AllDigits(s)
  {
    if |s| == 0 then 0 else ParseDecimal(s[..|s| - 1]) * 10 + DigitValue(s[|s| - 1])
  }

  lemma {:induction false} ParseDecimalOfDecimal(n: nat)
    ensures ParseDecimal(Decimal(n)) == n
    decreases n
  {
    if n >= 10 {
      var s := Decimal(n);
      var p := Decimal(n / 10);
      assert s == p + [DigitChar(n % 10)];
      assert s[..|s| - 1] == p;
      ParseDecimalOfDecimal(n / 10);
    }
  }

  /** Editors that take the line as a separate `+<line>` argument. */
  const LineFlagEditors: set<string> := {"vi", "vim", "nvim", "nano"}

  /** The arguments passed to `editor` to open `file`, at `line` if given:
      `[file]` without a line; `["+<line>", file]` for the editors above;
      the single argument `<file>:<line>` for any other editor. */
  function EditorArgs(editor: string, file: string, line: Option<u32>): (args: seq<string>)
    ensures line.None? ==> args == [file]
    ensures line.Some? && editor in LineFlagEditors ==>
      args == ["+" + Decimal(line.value as nat), file]
    ensures line.Some? && editor !in LineFlagEditors ==>
      args == [file + ":" + Decimal(line.value as nat)]
  {
    match line
    case None => [file]
    case Some(l) =>
      if editor in LineFlagEditors then ["+" + Decimal(l as nat), file]
      else [file + ":" + Decimal(l as nat)]
  }

  /** Reads a decimal string back as a line number, if it fits in a `u32`. */
  function LineNumber(d: string): Option<u32>
  {
    if |d| > 0 && AllDigits(d) && ParseDecimal(d) < 0x1_0000_0000 then
      Some(ParseDecimal(d) as u32)
    else None
  }

  lemma LineNumberOfDecimal(l: u32)
    ensures LineNumber(Decimal(l as nat)) == Some(l)
  {
    ParseDecimalOfDecimal(l as nat);
  }

  /** How an editor of the `+<line>` family reads its arguments back. */
  function ParseLineFlagArgs(args: seq<string>): Option<(string, Option<u32>)>
  {
    if |args| == 1 then Some((args[0], None))
    else if |args| == 2 && |args[0]| > 0 && args[0][0] == '+' then
      match LineNumber(args[0][1..])
      case Some(l) => Some((args[1], Some(l)))
      case None => None
    else None
  }

  /** With the `+<line>` convention, file and line are recovered, provided a
      lone argument is read as a file name (see `LineFlagArgAmbiguous`). */
  lemma LineFlagArgsRoundTrip(editor: string, file: string, line: Option<u32>)
    requires editor in LineFlagEditors
    ensures ParseLineFlagArgs(EditorArgs(editor, file, line)) == Some((file, line))
  {
    if line.Some? {
      var arg := "+" + Decimal(line.value as nat);
      assert arg[1..] == Decimal(line.value as nat);
      LineNumberOfDecimal(line.value);
    }
  }

  /** The position of the last ':' in `s`, if any. */
  function LastColon(s: string): (r: Option<nat>)
    ensures r.Some? ==> r.value < |s| && s[r.value] == ':'
    ensures r.Some? ==> forall k :: r.value < k < |s| ==> s[k] != ':'
    ensures r.None? ==> forall k :: 0 <= k < |s| ==> s[k] != ':'
  {
    if |s| == 0 then None
    else if s[|s| - 1] == ':' then Some(|s| - 1)
    else LastColon(s[..|s| - 1])
  }

  /** How an editor of the `<file>:<line>` convention splits its argument:
      at the last ':', when a line number follows it. */
  function SplitFileLine(arg: string): Option<(string, u32)>
  {
    match LastColon(arg)
    case None => None
    case Some(i) =>
      match LineNumber(arg[i + 1..])
      case Some(l) => Some((arg[..i], l))
      case None => None
  }

  /** Characters without a ':' appended after a string do not move its last ':'. */
  lemma {:induction false} LastColonIgnoresColonFreeSuffix(s: string, t: string)
    requires forall k :: 0 <= k < |t| ==> t[k] != ':'
    ensures LastColon(s + t) == LastColon(s)
    decreases |t|
  {
    if |t| > 0 {
      var u := t[..|t| - 1];
      assert (s + t)[..|s + t| - 1] == s + u;
      LastColonIgnoresColonFreeSuffix(s, u);
    } else {
      assert s + t == s;
    }
  }

  lemma LastColonOfFileLine(file: string, digits: string)
    requires AllDigits(digits)
    ensures LastColon(file + ":" + digits) == Some(|file|)
  {
    assert forall k :: 0 <= k < |digits| ==> IsDigit(digits[k]);
    LastColonIgnoresColonFreeSuffix(file + ":", digits);
  }

  /** With a line number, the `<file>:<line>` convention also loses nothing. */
  lemma FileLineArgRoundTrip(editor: string, file: string, line: u32)
    requires editor !in LineFlagEditors
    ensures SplitFileLine(EditorArgs(editor, file, Some(line))[0]) == Some((file, line))
  {
    var d := Decimal(line as nat);
    var arg := file + ":" + d;
    LastColonOfFileLine(file, d);
    assert arg[|file| + 1..] == d;
    assert arg[..|file|] == file;
    LineNumberOfDecimal(line);
  }

  /** Without a line the `<file>:<line>` convention is ambiguous: a file whose
      name ends in ":<digits>" is opened exactly like a line of another file. */
  lemma FileLineArgAmbiguous(editor: string, file: string, line: u32)
    requires editor !in LineFlagEditors
    ensures EditorArgs(editor, file + ":" + Decimal(line as nat), None) == EditorArgs(editor, file, Some(line))
  {
  }

  /** The `+<line>` convention has its own ambiguity: a file named "+<digits>"
      opened without a line is passed as the lone argument "+<digits>", which is
      also the line argument of opening another file at that line. */
  lemma LineFlagArgAmbiguous(editor: string, file: string, line: u32)
    requires editor in LineFlagEditors
    ensures EditorArgs(editor, "+" + Decimal(line as nat), None)[0] == EditorArgs(editor, file, Some(line))[0]
  {
  }
}

=== FILE: ints.dfy ===
/** The fixed-width unsigned integers the application uses: terminal sizes
    are `u16` and editor line numbers are `u32`. */
module Ints {

  newtype u16 = x: int | 0 <= x < 0x1_0000

  newtype u32 = x: int | 0 <= x < 0x1_0000_0000
}

=== FILE: items.dfy ===
/** Target data carried by selectable items. The diff entities are reduced to
    the fields the dispatch logic reads. */
module Items {
  import opened Ints

  /** One file's change: its path on both sides of the diff. */
  datatype FileDelta = FileDelta(oldFile: string, newFile: string)

  /** One hunk: the file it belongs to, the line number of its first added or
      removed line (`first_diff_line`), and its standalone patch text
      (`format_patch`). */
  datatype DiffHunk = DiffHunk(newFile: string, firstDiffLine: u32, patch: string)

  /** What an item lets the user act on. */
  datatype TargetData =
    | Ref(name: string)
    | File(path: string)
    | Delta(delta: FileDelta)
    | Hunk(hunk: DiffHunk)
}

=== FILE: keybinds.dfy ===
/** The operation vocabulary of the `keybinds` module. The key table itself
    (`op_of_key_event`) is an uninterpreted lookup supplied by the caller; only
    the shapes of keys and operations are fixed here. */
module Keybinds {
  import opened Seqs

  /** The kind of a terminal key event; only presses are dispatched. */
  datatype KeyEventKind = Press | Repeat | Release

  /** A key event: an opaque key description and its kind. */
  datatype KeyEvent = KeyEvent(code: string, kind: KeyEventKind)

  /** The pending prefix-key group. `Idle` is the source's `TransientOp::None`;
      `Help` shows all bindings and is dismissed by the next key; every other
      group is named. */
  datatype TransientOp = Idle | Help | Group(name: string)

  /** Operations that act on the selected item's target data. */
  datatype TargetOp =
    | Show
    | Stage
    | Unstage
    | RebaseInteractive
    | CommitFixup
    | RebaseAutosquash
    | Discard
    | Checkout

  /** Every operation a key can resolve to. */
  datatype Op =
    | Quit
    | Refresh
    | ToggleSection
    | SelectPrevious
    | SelectNext
    | HalfPageUp
    | HalfPageDown
    | Commit
    | CommitAmend
    | Transient(group: TransientOp)
    | LogCurrent
    | FetchAll
    | PullRemote
    | PushRemote
    | Target(targetOp: TargetOp)
    | RebaseAbort
    | RebaseContinue
    | ShowRefs

  /** The position of a target operation in `AllTargetOps`. */
  function Rank(op: TargetOp): nat {
    match op
    case Show => 0
    case Stage => 1
    case Unstage => 2
    case RebaseInteractive => 3
    case CommitFixup => 4
    case RebaseAutosquash => 5
    case Discard => 6
    case Checkout => 7
  }

  /** `TargetOp::list_all`: every target operation exactly once. */
  function AllTargetOps(): (ops: seq<TargetOp>)
    ensures forall op: TargetOp :: Rank(op) < |ops| && ops[Rank(op)] == op
    ensures NoDuplicates(ops)
  {
    [Show, Stage, Unstage, RebaseInteractive, CommitFixup, RebaseAutosquash, Discard, Checkout]
  }
}

=== FILE: screens.dfy ===
/** Screens as the application state sees them: which query a screen shows,
    its viewport, and the log of screen methods called on it. The methods'
    own behaviour (cursor movement, refreshing, folding) belongs to the
    `screen` module and is recorded here, not interpreted. */
module Screens {
  import opened Ints

  /** The constructor a screen was created with, and its arguments. */
  datatype ScreenKind =
    | StatusScreen(flag: bool)
    | ShowScreen(args: seq<string>)
    | LogScreen(args: seq<string>)
    | DiffScreen(args: seq<string>)
    | ShowRefsScreen

  /** A call of one of the screen's own methods. */
  datatype Effect =
    | Refreshed
    | SectionToggled
    | MovedPrevious
    | MovedNext
    | ScrolledHalfPageUp
    | ScrolledHalfPageDown
    | CursorClamped

  /** The viewport size; `Unsized` until the first resize event reaches the screen. */
  datatype Viewport = Unsized | Sized(width: u16, height: u16)

  datatype Screen = Screen(kind: ScreenKind, size: Viewport, effects: seq<Effect>)

  function NewScreen(kind: ScreenKind): (s: Screen)
    ensures s.kind == kind && s.effects == []
  {
    Screen(kind, Unsized, [])
  }

  /** Calls one method on a screen. */
  function Apply(s: Screen, e: Effect): (s': Screen)
    ensures s'.kind == s.kind && s'.size == s.size
    ensures |s'.effects| == |s.effects| + 1 && s'.effects[|s.effects|] == e
  {
    s.(effects := s.effects + [e])
  }

  /** Calls one method on the top (last) screen of a stack. */
  function ApplyTop(screens: seq<Screen>, e: Effect): (r: seq<Screen>)
    requires |screens| > 0
    ensures |r| == |screens|
    ensures forall i :: 0 <= i < |screens| - 1 ==> r[i] == screens[i]
    ensures r[|r| - 1] == Apply(screens[|screens| - 1], e)
  {
    screens[..|screens| - 1] + [Apply(screens[|screens| - 1], e)]
  }
}

=== FILE: seqs.dfy ===
/** Facts about sequences shared by several modules. */
module Seqs {

  /** No element occurs twice. */
  predicate NoDuplicates<T(==)>(s: seq<T>) {
    forall i, j :: 0 <= i < j < |s| ==> s[i] != s[j]
  }
}

=== FILE: target_ops.dfy ===
/** `closure_by_target_op` and `list_target_ops`: which operations apply to
    which kind of selected item, and what each one does. Instead of a closure
    the matrix yields an `Action`, a description of the work the closure does. */
module TargetOps {
  import opened Wrappers
  import opened Ints
  import opened Seqs
  import opened Keybinds
  import opened Items
  import opened Commands

  /** What a defined target operation does when run. */
  datatype Action =
    | PushShow(reference: string)                // push a `show` screen for a ref
    | OpenEditor(file: string, line: Option<u32>) // open the editor in the terminal
    | RunCmd(cmd: GitCmd, arg: string)            // captured git command with one argument
    | RunPatch(cmd: GitCmd, patch: string)        // captured git command fed a patch on stdin
    | RunSubscreen(cmd: GitCmd, arg: string)      // git command handed the terminal
    | RemoveFile(path: string)                    // delete an untracked file

  /** The string an action operates on. */
  function Subject(a: Action): string {
    match a
    case PushShow(r) => r
    case OpenEditor(f, _) => f
    case RunCmd(_, arg) => arg
    case RunPatch(_, p) => p
    case RunSubscreen(_, arg) => arg
    case RemoveFile(p) => p
  }

  datatype TargetKind = RefKind | FileKind | DeltaKind | HunkKind

  function KindOf(t: TargetData): TargetKind {
    match t
    case Ref(_) => RefKind
    case File(_) => FileKind
    case Delta(_) => DeltaKind
    case Hunk(_) => HunkKind
  }

  /** Operations that only make sense on a ref. */
  const RefOnlyOps: set<TargetOp> := {RebaseInteractive, CommitFixup, RebaseAutosquash, Checkout}

  /** The kinds of target each operation accepts, as a table. */
  function AcceptedKinds(op: TargetOp): set<TargetKind> {
    match op
    case Show => {RefKind, FileKind, DeltaKind, HunkKind}
    case Stage => {FileKind, DeltaKind, HunkKind}
    case Unstage => {DeltaKind, HunkKind}
    case Discard => {FileKind, DeltaKind, HunkKind}
    case RebaseInteractive => {RefKind}
    case CommitFixup => {RefKind}
    case RebaseAutosquash => {RefKind}
    case Checkout => {RefKind}
  }

  /** Reference definition of the matrix's domain: the target's kind is
      accepted, and a discarded delta is not a rename. */
  predicate Defined(t: TargetData, op: TargetOp) {
    && KindOf(t) in AcceptedKinds(op)
    && (op == Discard && t.Delta? ==> t.delta.oldFile == t.delta.newFile)
  }

  /** The payload a defined operation acts on: the ref name, the file path,
      a delta's new path (its old path when discarding), and a hunk's file when
      showing it and its patch otherwise. */
  function Payload(t: TargetData, op: TargetOp): string {
    match t
    case Ref(name) => name
    case File(path) => path
    case Delta(d) => if op == Discard then d.oldFile else d.newFile
    case Hunk(h) => if op == Show then h.newFile else h.patch
  }

  /** What each operation means, independently of the target: the commands
      and effects an action for it may use. */
  predicate Performs(op: TargetOp, a: Action) {
    match op
    case Show => a.PushShow? || a.OpenEditor?
    case Stage => (a.RunCmd? && a.cmd == StageFileCmd) || (a.RunPatch? && a.cmd == StagePatchCmd)
    case Unstage => (a.RunCmd? && a.cmd == UnstageFileCmd) || (a.RunPatch? && a.cmd == UnstagePatchCmd)
    case Discard =>
      || a.RemoveFile?
      || (a.RunCmd? && a.cmd == CheckoutFileCmd)
      || (a.RunPatch? && a.cmd == DiscardUnstagedPatchCmd)
    case RebaseInteractive => a.RunSubscreen? && a.cmd == RebaseInteractiveCmd
    case CommitFixup => a.RunSubscreen? && a.cmd == CommitFixupCmd
    case RebaseAutosquash => a.RunSubscreen? && a.cmd == RebaseAutosquashCmd
    case Checkout => a.RunCmd? && a.cmd == CheckoutRefCmd
  }

  /** The target-operation matrix. */
  function ClosureByTargetOp(t: TargetData, op: TargetOp): (r: Option<Action>)
    ensures r.Some? <==> Defined(t, op)
    ensures r.Some? ==> Subject(r.value) == Payload(t, op)
    ensures r.Some? ==> Performs(op, r.value)
    ensures r.Some? && op == Show ==> (r.value.PushShow? <==> t.Ref?)
    ensures r.Some? && r.value.OpenEditor? ==> (r.value.line.Some? <==> t.Hunk?)
    ensures r.Some? && op != Show ==> (r.value.RunPatch? <==> t.Hunk?)
    ensures op in RefOnlyOps ==> (r.Some? <==> t.Ref?)
    ensures t.Ref? && op in {Stage, Unstage, Discard} ==> r.None?
    ensures t.File? && op == Unstage ==> r.None?
    ensures op == Discard && t.Delta? ==>
      (r.Some? <==> t.delta.oldFile == t.delta.newFile)
      && (r.Some? ==> r.value == RunCmd(CheckoutFileCmd, t.delta.oldFile))
    ensures op == Show && t.Hunk? ==> r == Some(OpenEditor(t.hunk.newFile, Some(t.hunk.firstDiffLine)))
    ensures op == Discard && t.File? ==> r == Some(RemoveFile(t.path))
  {
    match (op, t)
    case (Show, Ref(r)) => Some(PushShow(r))
    case (Show, File(u)) => Some(OpenEditor(u, None))
    case (Show, Delta(d)) => Some(OpenEditor(d.newFile, None))
    case (Show, Hunk(h)) => Some(OpenEditor(h.newFile, Some(h.firstDiffLine)))
    case (Stage, Ref(_)) => None
    case (Stage, File(u)) => Some(RunCmd(StageFileCmd, u))
    case (Stage, Delta(d)) => Some(RunCmd(StageFileCmd, d.newFile))
    case (Stage, Hunk(h)) => Some(RunPatch(StagePatchCmd, h.patch))
    case (Unstage, Ref(_)) => None
    case (Unstage, File(_)) => None
    case (Unstage, Delta(d)) => Some(RunCmd(UnstageFileCmd, d.newFile))
    case (Unstage, Hunk(h)) => Some(RunPatch(UnstagePatchCmd, h.patch))
    case (RebaseInteractive, Ref(r)) => Some(RunSubscreen(RebaseInteractiveCmd, r))
    case (RebaseInteractive, _) => None
    case (CommitFixup, Ref(r)) => Some(RunSubscreen(CommitFixupCmd, r))
    case (CommitFixup, _) => None
    case (RebaseAutosquash, Ref(r)) => Some(RunSubscreen(RebaseAutosquashCmd, r))
    case (RebaseAutosquash, _) => None
    case (Discard, Ref(_)) => None
    case (Discard, File(f)) => Some(RemoveFile(f))
    case (Discard, Delta(d)) =>
      if d.oldFile == d.newFile then Some(RunCmd(CheckoutFileCmd, d.oldFile)) else None
    case (Discard, Hunk(h)) => Some(RunPatch(DiscardUnstagedPatchCmd, h.patch))
    case (Checkout, Ref(r)) => Some(RunCmd(CheckoutRefCmd, r))
    case (Checkout, _) => None
  }

  /** The operations of `ops` the matrix defines for `t`, in their order. */
  function FilterDefined(t: TargetData, ops: seq<TargetOp>): (r: seq<TargetOp>)
    ensures |r| <= |ops|
  {
    if |ops| == 0 then []
    else
      var rest := FilterDefined(t, ops[1..]);
      if ClosureByTargetOp(t, ops[0]).Some? then [ops[0]] + rest else rest
  }

  /** Filtering keeps exactly the defined operations, and never repeats one. */
  lemma {:induction false} FilterDefinedKeepsDefined(t: TargetData, ops: seq<TargetOp>)
    ensures forall op :: op in FilterDefined(t, ops) <==> op in ops && ClosureByTargetOp(t, op).Some?
    ensures NoDuplicates(ops) ==> NoDuplicates(FilterDefined(t, ops))
    decreases |ops|
  {
    if |ops| > 0 {
      FilterDefinedKeepsDefined(t, ops[1..]);
      assert forall op :: op in ops <==> op == ops[0] || op in ops[1..];
      if NoDuplicates(ops) {
        assert NoDuplicates(ops[1..]);
        assert ops[0] !in ops[1..];
      }
    }
  }

  /** `list_target_ops`: exactly the operations the matrix defines for `t`,
      each once. */
  function ListTargetOps(t: TargetData): (r: seq<TargetOp>)
    ensures forall op :: op in r <==> Defined(t, op)
    ensures NoDuplicates(r)
  {
    FilterDefinedKeepsDefined(t, AllTargetOps());
    FilterDefined(t, AllTargetOps())
  }

  /** `[op]` when the matrix defines `op` for `t`, else nothing. */
  function Keep(t: TargetData, op: TargetOp): seq<TargetOp> {
    if ClosureByTargetOp(t, op).Some? then [op] else []
  }

  /** The filter decides the head and keeps it in front of the rest. */
  lemma FilterDefinedCons(t: TargetData, ops: seq<TargetOp>)
    requires |ops| > 0
    ensures FilterDefined(t, ops) == Keep(t, ops[0]) + FilterDefined(t, ops[1..])
  {
  }

  lemma FilterAllInOrder(t: TargetData)
    ensures FilterDefined(t, AllTargetOps()) ==
      Keep(t, Show) + (Keep(t, Stage) + (Keep(t, Unstage) + (Keep(t, RebaseInteractive)
      + (Keep(t, CommitFixup) + (Keep(t, RebaseAutosquash) + (Keep(t, Discard) + Keep(t, Checkout)))))))
  {
    var all := AllTargetOps();
    assert all == [Show, Stage, Unstage, RebaseInteractive, CommitFixup, RebaseAutosquash, Discard, Checkout];
    FilterDefinedCons(t, all[7..]);
    assert all[7..][1..] == [];
    assert FilterDefined(t, all[7..]) == Keep(t, Checkout);
    FilterDefinedCons(t, all[6..]);
    assert all[6..][1..] == all[7..];
    FilterDefinedCons(t, all[5..]);
    assert all[5..][1..] == all[6..];
    FilterDefinedCons(t, all[4..]);
    assert all[4..][1..] == all[5..];
    FilterDefinedCons(t, all[3..]);
    assert all[3..][1..] == all[4..];
    FilterDefinedCons(t, all[2..]);
    assert all[2..][1..] == all[3..];
    FilterDefinedCons(t, all[1..]);
    assert all[1..][1..] == all[2..];
    FilterDefinedCons(t, all);
  }

  /** `list_target_ops` visits the operations in `list_all` order. */
  lemma ListTargetOpsInOrder(t: TargetData)
    ensures ListTargetOps(t) ==
      Keep(t, Show) + (Keep(t, Stage) + (Keep(t, Unstage) + (Keep(t, RebaseInteractive)
      + (Keep(t, CommitFixup) + (Keep(t, RebaseAutosquash) + (Keep(t, Discard) + Keep(t, Checkout)))))))
  {
    FilterAllInOrder(t);
  }

  lemma ListTargetOpsOfRef(name: string)
    ensures ListTargetOps(Ref(name)) == [Show, RebaseInteractive, CommitFixup, RebaseAutosquash, Checkout]
  {
    var t := Ref(name);
    assert Keep(t, Show) == [Show];
    assert Keep(t, Stage) == [];
    assert Keep(t, Unstage) == [];
    assert Keep(t, RebaseInteractive) == [RebaseInteractive];
    assert Keep(t, CommitFixup) == [CommitFixup];
    assert Keep(t, RebaseAutosquash) == [RebaseAutosquash];
    assert Keep(t, Discard) == [];
    assert Keep(t, Checkout) == [Checkout];
    ListTargetOpsInOrder(t);
  }

  lemma ListTargetOpsOfFile(path: string)
    ensures ListTargetOps(File(path)) == [Show, Stage, Discard]
  {
    ListTargetOpsInOrder(File(path));
  }

  lemma ListTargetOpsOfDelta(d: FileDelta)
    ensures ListTargetOps(Delta(d)) ==
      if d.oldFile == d.newFile then [Show, Stage, Unstage, Discard] else [Show, Stage, Unstage]
  {
    ListTargetOpsInOrder(Delta(d));
  }

  lemma ListTargetOpsOfHunk(h: DiffHunk)
    ensures ListTargetOps(Hunk(h)) == [Show, Stage, Unstage, Discard]
  {
    ListTargetOpsInOrder(Hunk(h));
  }
}

=== FILE: wrappers.dfy ===
/** Failure-carrying datatypes used throughout the model: `Option` stands for
    Rust's `Option<T>` and `Result` for `Result<T, E>`. */
module Wrappers {

  datatype Option<+T> = None | Some(value: T)

  datatype Result<+T, +E> = Ok(value: T) | Err(error: E)
}
